=== FILE: README.md ===
# mcp_camera core in Dafny

A Dafny model of the control logic of the `mcp_camera` service. The service exposes one tool, `capture_and_analyze_image`. The tool opens a camera, grabs one frame, closes the camera, and returns a text report of the frame's brightness, colour means and edge count. Three parts are modelled:

- **`CameraService`** (`camera_service.dfy`). The camera session is an immutable record: `cap`, `is_open`, and a log of the driver calls that acquire, configure, read or release a device (construct, set, read, release). `isOpened` queries are not logged. Each pure function steps the record. The driver is an oracle: `isOpened` says whether a constructed `VideoCapture` opened, and `read` returns an optional frame. `Held(log)` is the set of handles constructed and not yet released. `Valid` is the invariant every reachable session keeps: an open session holds its handle, and every held handle's id is smaller than the length of the log.
- **`ImageAnalyzer`** (`image_analyzer.dfy`). A decoded image is an `np.ndarray`: a shape plus rows of pixels whose channels are bytes in 0..255, stored as blue, green, red. Two OpenCV computations are opaque functions supplied in a `Vision` record: the grey level `cvtColor` gives a pixel, and the cells of `Canny(gray, 50, 150)`. The JPEG/base64 codec is an opaque `Codec`. Decoding yields `Raised`, `NoImage` or `Decoded(image)`. Means are exact real averages. The edge count is the number of non-zero cells.
- **`Server`** (`main.dfy`). The handler composes the two models over the same oracles.

Supporting modules: `Wrappers` (`Option`), `Images` (bytes, arrays, codec) and `Decimal` (Python's `str` of a non-negative int, with a parser that inverts it).

OpenCV constants are written with OpenCV's values:
- `CAP_ANY = 0`
- `CAP_AVFOUNDATION = 1200`
- `CAP_PROP_FRAME_WIDTH = 3` and `CAP_PROP_FRAME_HEIGHT = 4`
- `CAP_PROP_BRIGHTNESS = 10` and `CAP_PROP_CONTRAST = 11`

Faults inside the analysis follow OpenCV's documented preconditions:
- `cvtColor(COLOR_BGR2GRAY)` raises unless the array is non-empty and 3-D with 3 or 4 channels.
- `b, g, r = cv2.split(image)` raises unless there are exactly 3 channels.

Behaviours of the code the model keeps:
- The third open attempt is `VideoCapture(device_index + CAP_ANY)`. Because `CAP_ANY` is 0, this is the same call as the first attempt. `ThirdAttemptRepeatsFirst` states this.
- When every attempt fails, the third handle stays in `cap` unreleased. `close_camera` then does nothing because `is_open` is false. `OpenHeld` states both: that handle remains held.
- `open_camera` on an open session returns true whatever device index is passed.
- Every failure of `analyze_image_from_base64` returns `None`: a decoding exception, an undecodable payload, and a fault in any metric alike.

## Model

| member | source | states |
|---|---|---|
| CameraService.Init | camera_service.py:10-12 | a new service is closed, has no handle, holds no resource, has read nothing, and satisfies the session invariant |
| CameraService.OpenCamera | camera_service.py:14-42 | on an open session it returns true and changes nothing; otherwise the result equals the new `is_open`, and equals whether the handle left in `cap` opened; the driver log only grows |
| CameraService.OpenIdempotent | camera_service.py:16-17 | once open, a second `open_camera` with any device index returns true and constructs no handle |
| CameraService.OpenAttemptOrder | camera_service.py:19-42 | the log shows 1 to 3 constructions, in plan order (default, AVFoundation, `device_index + CAP_ANY`); a further attempt happens only after one that did not open, and the first that opens is the last; each failed handle is released right after its construction and before the next; `cap` is the last handle; 1280x720 is requested exactly when it opened |
| CameraService.OpenHeld | camera_service.py:19-35 | from a closed session, exactly the last constructed handle is added to the held set, and it was not held before; on total failure three handles were constructed, `cap` is the third, and it is still held after `close_camera` |
| CameraService.OpenFailureLeavesThird | camera_service.py:19-35 | when no attempt opens, exactly three handles were constructed and the one left in `cap` is the third |
| CameraService.OpenPreservesValid | camera_service.py:14-42 | `open_camera` keeps the session invariant and reads no frame |
| CameraService.ThirdAttemptRepeatsFirst | camera_service.py:20-32 | the third attempt's request equals the first's, with the original device index |
| CameraService.CloseCamera | camera_service.py:44-48 | afterwards `is_open` is false unless the session was open without a handle; an open handle is released with exactly one release event; a closed session is unchanged; the held set loses exactly the open handle; no frame is read |
| CameraService.CloseIdempotent | camera_service.py:44-48 | a second `close_camera` changes nothing |
| CameraService.CaptureImage | camera_service.py:50-59 | the result is `None` exactly when the session is closed, has no handle, or `read` yields no frame; when open with a handle, exactly one `read` is made on `cap` and its frame is the result; `is_open` and `cap` never change; when closed nothing happens; held handles and the invariant are kept |
| CameraService.CaptureImageBase64 | camera_service.py:61-71 | the result is `None` exactly when `capture_image` gives `None`; otherwise it is the encoding of that frame; the session is the one `capture_image` leaves |
| CameraService.AdjustSettings | camera_service.py:73-85 | it returns true exactly when open with a handle; when closed nothing changes; when open only `set` calls on the current handle are added, one for each property whose argument is present, each with that argument, and none for an absent one; `is_open`, `cap`, held handles and reads are unchanged |
| CameraService.SettingEventsContent | camera_service.py:79-83 | the `set` calls name the current handle, there is one per given argument, brightness and contrast each carry their own argument, and an absent argument gives no call |
| ImageAnalyzer.Mean | image_analyzer.py:27 | the mean of a non-empty 8-bit plane lies in [0, 255] |
| ImageAnalyzer.MeanUniform | image_analyzer.py:36-40 | the mean of a plane whose cells all hold v is v |
| ImageAnalyzer.ChannelPlane | image_analyzer.py:33 | a split plane has the image's height and width, and cell (i, j) is stored channel k of pixel (i, j) |
| ImageAnalyzer.ToGray | image_analyzer.py:24-25 | grey conversion succeeds exactly on non-empty 3-D arrays with 3 or 4 channels, and keeps height and width |
| ImageAnalyzer.AnalyzeBrightness | image_analyzer.py:22-28 | brightness exists exactly when the grey conversion succeeds, and lies in [0, 255] |
| ImageAnalyzer.AnalyzeColorDistribution | image_analyzer.py:30-42 | colour means exist exactly for non-empty 3-channel arrays; `red_mean` is the mean of stored channel 2, `green_mean` of channel 1 and `blue_mean` of channel 0; each lies in [0, 255] |
| ImageAnalyzer.SolidFrameBrightness | image_analyzer.py:22-28 | for a frame whose every pixel stores the same values, brightness is the grey level of that pixel |
| ImageAnalyzer.SolidFrameColors | image_analyzer.py:30-42 | for a solid 3-channel frame of stored pixel (b, g, r), the means are red = r, green = g, blue = b |
| ImageAnalyzer.ReversedPlanes | image_analyzer.py:33 | splitting an image whose pixels store their channels reversed gives the original planes in reverse order |
| ImageAnalyzer.RedBlueFollowStorageOrder | image_analyzer.py:33-39 | reversing each pixel's stored channel order swaps `red_mean` and `blue_mean` and keeps `green_mean` |
| ImageAnalyzer.CountNonzero | image_analyzer.py:51 | the number of non-zero cells is at most the number of cells |
| ImageAnalyzer.CountNonzeroExtremes | image_analyzer.py:51 | the count is 0 exactly when every cell is 0, and equals the number of cells exactly when every cell is non-zero |
| ImageAnalyzer.EdgeMap | image_analyzer.py:49 | the Canny edge map has the grey image's height and width |
| ImageAnalyzer.DetectEdges | image_analyzer.py:44-52 | an edge count exists exactly when the grey conversion succeeds, and is at most width times height |
| ImageAnalyzer.EdgeCountExtremes | image_analyzer.py:44-52 | the edge count is 0 exactly when the edge map is all zero, and is the full area exactly when every cell is an edge |
| ImageAnalyzer.GetDimensions | image_analyzer.py:70-74 | width is `shape[1]`, height `shape[0]`, and channels `shape[2]` for a 3-D array and 1 for a 2-D array; height is the number of rows, width every row's length, and channels every pixel's length |
| ImageAnalyzer.AnalyzeImageFromBase64 | image_analyzer.py:54-84 | any decode outcome other than an image gives `None`; a result exists exactly when the decoded image is non-empty with 3 channels; it then reports width `shape[1]`, height `shape[0]` and 3 channels; brightness, the colour means and the edge count are exactly `analyze_brightness`, `analyze_color_distribution` and `detect_edges` of the decoded image; brightness and means lie in [0, 255], and the edge count is at most width times height |
| ImageAnalyzer.Report | image_analyzer.py:94-101 | the report starts with the header line, then the size line, and ends with a newline and the edge-count line |
| ImageAnalyzer.ReportLayout | image_analyzer.py:94-101 | when each rendered float stays on one line, the report splits into exactly eight lines: header, size, brightness, the colour heading, red, green, blue, edge count |
| ImageAnalyzer.ReportEdgeCount | image_analyzer.py:101 | for any float formatting, the last line of a report reads back the analysed edge count |
| ImageAnalyzer.EdgeLineRoundTrip | image_analyzer.py:101 | the edge-count line (label, then the count in decimal) parses back to the count |
| ImageAnalyzer.LinesAppend | image_analyzer.py:94-101 | splitting at newlines maps `x + "\n" + y` to the lines of `x` followed by the lines of `y` |
| ImageAnalyzer.LinesOfJoin | image_analyzer.py:94-101 | lines without newlines, joined by newlines, split back into the same lines |
| ImageAnalyzer.GetBasicAnalysis | image_analyzer.py:86-103 | the text is exactly "图像分析失败" if and only if analysis fails; it always starts with "图像分析"; on success the width and height can be read back from its second line, and the edge count from its last |
| ImageAnalyzer.SizeLineRoundTrip | image_analyzer.py:95 | the size line (label, width, "x", height) parses back to the same width and height |
| ImageAnalyzer.ReportSize | image_analyzer.py:94-95 | for any float formatting, reading the second line of a report gives the analysed width and height |
| Decimal.Str | image_analyzer.py:95 | `str` of a non-negative int is a non-empty string of digits, with no leading zero except for 0 itself |
| Decimal.ValueOfStr | image_analyzer.py:95 | reading the decimal text of n back gives n |
| Server.CaptureAndAnalyzeImage | main.py:22-49 | after every call the session is closed and valid; the text is "无法打开摄像头" exactly when open fails, and then no close happens; it is "图像捕获失败" exactly when open succeeds and capture gives `None`; whenever open succeeded, the last logged driver call is the release of the opened handle; on success the text is `get_basic_analysis` of the captured payload; exactly one frame is read when open succeeds, none otherwise; held handles return to what they were, lose the previously open handle, or gain the leaked third handle after a failed open |
| Server.CaptureThenClose | main.py:36-44 | capturing from an open session and then closing it reads exactly one frame, releases the open handle as the last logged driver call, and leaves a closed, valid session without that handle |
| Server.AnalysisTextDistinct | main.py:31-47 | the analysis text never equals either of the handler's failure messages, so a caller can tell the three outcomes apart |
| Server.AnalysisLeavesCameraAlone | main.py:43-49 | the session a handler call leaves does not depend on the analysis oracles or the float formatting |

## Left out

- The `cv2.VideoCapture` driver (`isOpened`, `read`, `set`, `release`) is hardware I/O, so it is an oracle. Constructions, `set`, `read` and `release` are recorded in the event log. The return values of `set` are ignored by the code and are not modelled.
- `isOpened` queries are not logged. `Driver.isOpened` is a fixed function of the handle: the model assumes a device gives the same answer every time it is asked. The code asks up to three times about the same handle (camera_service.py:23, 29, 34). A device whose state changes between those questions is not modelled.
- The JPEG encoder and decoder and base64 are foreign codecs, passed in as opaque functions. `imencode`'s ignored success flag is modelled as "encoding always succeeds". The JPEG round trip belongs to the codec and is not modelled.
- The grey-level weights of `cvtColor` and the Canny detector's internals are OpenCV numerics, so they are opaque. As a result, "a uniform image has no edges" and "black gives brightness 0" cannot be stated.
- float64 summation and the `:.2f` formatting are floating point. Means are exact reals, and the formatting is a function parameter.
- CPython's reference counting is not modelled. When `open_camera` rebinds `self.cap` (camera_service.py:20), the previous `VideoCapture` loses its last reference and its destructor releases the device at once. So a third handle leaked by a failed open is in fact released at the next `open_camera`. In the model it stays in the held set across handler calls, which is what the `Held` clause of `Server.CaptureAndAnalyzeImage` states. The model's held set counts handles the code never releases explicitly.
- `deviceIndex` is an unbounded integer. The `VideoCapture(int index, ...)` constructor takes a C `int`, and the Python binding raises on an index outside that range. The exception leaves `open_camera` and the handler. The model does not model that exception, nor any other exception raised by a driver call: there every index goes through the attempt sequence, and every driver call returns.
- `cap` is modelled as `Option`, and `self.cap` in a condition as `cap.Some?`: a `VideoCapture` object is always truthy.
- FastMCP server setup, `asyncio`, the stdio transport and logging (main.py:1-16, 51-62) are plumbing.
- `ImageAnalyzer.__init__` does nothing and has no model.
- The test scripts need hardware, write files, or exercise the MCP protocol.
- An empty 3-channel array is not given colour means: `AnalyzeColorDistribution` returns `None` for it, as for any other fault of `cv2.split` or `np.mean`. `analyze_image_from_base64` never reaches that case, because `cvtColor` refuses an empty array first.

=== FILE: camera_service.dfy ===
/**
  `CameraService`: the open/close lifecycle of one `cv2.VideoCapture`, as an
  immutable session record stepped by pure functions.

  The capture driver is an oracle (`Driver`). Every call the service makes into
  the driver (construct, release, set, read) is appended to the session's event
  log, so that the order of those calls and the handles still held can be stated.
 */
module CameraService {
  import opened Wrappers
  import opened Images

  /** OpenCV's "any backend" API preference. */
  const CAP_ANY: int := 0
  /** OpenCV's macOS AVFoundation API preference. */
  const CAP_AVFOUNDATION: int := 1200
  /** OpenCV property identifiers passed to `VideoCapture.set`. */
  const CAP_PROP_FRAME_WIDTH: int := 3
  const CAP_PROP_FRAME_HEIGHT: int := 4
  const CAP_PROP_BRIGHTNESS: int := 10
  const CAP_PROP_CONTRAST: int := 11
  /** The resolution requested after every successful open. */
  const DEFAULT_WIDTH: int := 1280
  const DEFAULT_HEIGHT: int := 720

  /** The arguments of one `cv2.VideoCapture(...)` call: an index and an optional API preference. */
  datatype Request = Request(index: int, api: Option<int>)

  /** A `VideoCapture` object; `id` is the position of its construction in the event log. */
  datatype Handle = Handle(id: nat, request: Request)

  /** A call the service makes into the driver. */
  datatype Event =
    | Construct(handle: Handle)
    | Release(handle: Handle)
    | SetProp(handle: Handle, prop: int, value: int)
    | Read(handle: Handle)

  /**
    The driver oracle: whether a constructed handle reports `isOpened()`, and what
    `read()` on a handle returns when it is the `tick`-th event of the log.
   */
  datatype Driver = Driver(isOpened: Handle -> bool, read: (Handle, nat) -> Option<Image>)

  /** The fields `cap` and `is_open` of a `CameraService`, plus the log of driver calls so far. */
  datatype Session = Session(cap: Option<Handle>, isOpen: bool, log: seq<Event>)

  /** The session after an operation, and the operation's return value. */
  datatype Step<T> = Step(session: Session, out: T)

  // ---------------------------------------------------------------------------
  // Resources held, and the session invariant

  /** The handles constructed and not yet released, after the events of `log`. */
  function Held(log: seq<Event>): set<Handle>
    decreases |log|
  {
    if log == [] then {}
    else
      var before := Held(log[..|log| - 1]);
      match log[|log| - 1]
      case Construct(h) => before + {h}
      case Release(h) => before - {h}
      case _ => before
  }

  lemma HeldSnoc(log: seq<Event>, e: Event)
    ensures e.Construct? ==> Held(log + [e]) == Held(log) + {e.handle}
    ensures e.Release? ==> Held(log + [e]) == Held(log) - {e.handle}
    ensures !e.Construct? && !e.Release? ==> Held(log + [e]) == Held(log)
  {
    assert (log + [e])[..|log|] == log;
  }

  /** Number of `read()` calls in a log. */
  function Reads(log: seq<Event>): nat
    decreases |log|
  {
    if log == [] then 0
    else Reads(log[..|log| - 1]) + (if log[|log| - 1].Read? then 1 else 0)
  }

  lemma ReadsSnoc(log: seq<Event>, e: Event)
    ensures Reads(log + [e]) == Reads(log) + (if e.Read? then 1 else 0)
  {
    assert (log + [e])[..|log|] == log;
  }

  /** The handles of the `Construct` events of a log, in order. */
  function Constructed(log: seq<Event>): seq<Handle>
    decreases |log|
  {
    if log == [] then []
    else
      var e := log[|log| - 1];
      Constructed(log[..|log| - 1]) + (if e.Construct? then [e.handle] else [])
  }

  lemma ConstructedSnoc(log: seq<Event>, e: Event)
    ensures Constructed(log + [e]) == Constructed(log) + (if e.Construct? then [e.handle] else [])
  {
    assert (log + [e])[..|log|] == log;
  }

  /**
    What every reachable session satisfies: an open session holds its handle, and
    every held handle's id is smaller than the length of the log.
   */
  predicate Valid(s: Session)
  {
    && (s.isOpen ==> s.cap.Some? && s.cap.value in Held(s.log))
    && (forall h :: h in Held(s.log) ==> h.id < |s.log|)
  }

  // ---------------------------------------------------------------------------
  // Operations

  /** `CameraService()`: closed, no handle, and nothing held. */
  function Init(): (s: Session)
    ensures Valid(s) && !s.isOpen && s.cap.None?
    ensures Held(s.log) == {} && Reads(s.log) == 0
  {
    Session(None, false, [])
  }

  /** The three constructor calls `open_camera` makes, in the order it makes them. */
  function Plan(deviceIndex: int): seq<Request>
  {
    [Request(deviceIndex, None), Request(deviceIndex, Some(CAP_AVFOUNDATION)), Request(deviceIndex + CAP_ANY, None)]
  }

  /**
    One fallback step of `open_camera`: when `cap` did not open, release it and
    construct a handle for `request` in its place.
   */
  function Fallback(driver: Driver, cap: Handle, log: seq<Event>, request: Request): (r: (Handle, seq<Event>))
    ensures driver.isOpened(cap) ==> r == (cap, log)
    ensures !driver.isOpened(cap) ==>
              && r.0 == Handle(|log| + 1, request)
              && r.1 == log + [Release(cap), Construct(r.0)]
  {
    if driver.isOpened(cap) then (cap, log)
    else
      var released := log + [Release(cap)];
      var h := Handle(|released|, request);
      (h, released + [Construct(h)])
  }

  /**
    `open_camera(device_index)`: a no-op returning true when already open; otherwise
    up to three constructions, then the default resolution on success.
   */
  function OpenCamera(s: Session, driver: Driver, deviceIndex: int): (r: Step<bool>)
    ensures s.isOpen ==> r == Step(s, true)
    ensures r.out == r.session.isOpen
    ensures !s.isOpen ==> r.session.cap.Some? && r.out == driver.isOpened(r.session.cap.value)
    ensures |s.log| <= |r.session.log| && r.session.log[..|s.log|] == s.log
  {
    if s.isOpen then Step(s, true)
    else
      var h1 := Handle(|s.log|, Request(deviceIndex, None));
      var (h2, log2) := Fallback(driver, h1, s.log + [Construct(h1)], Request(deviceIndex, Some(CAP_AVFOUNDATION)));
      var (h3, log3) := Fallback(driver, h2, log2, Request(deviceIndex + CAP_ANY, None));
      if !driver.isOpened(h3) then
        Step(Session(Some(h3), false, log3), false)
      else
        var configured := log3 + [SetProp(h3, CAP_PROP_FRAME_WIDTH, DEFAULT_WIDTH), SetProp(h3, CAP_PROP_FRAME_HEIGHT, DEFAULT_HEIGHT)];
        Step(Session(Some(h3), true, configured), true)
  }

  /** `close_camera()`: releases the handle and clears `is_open`, only when there is a handle and it is open. */
  function CloseCamera(s: Session): (r: Session)
    ensures r.cap == s.cap
    ensures r.isOpen <==> s.isOpen && s.cap.None?
    ensures s.isOpen && s.cap.Some? ==> r.log == s.log + [Release(s.cap.value)]
    ensures !s.isOpen ==> r == s
    ensures Valid(s) ==> Valid(r) && Held(r.log) == Held(s.log) - (if s.isOpen then {s.cap.value} else {})
    ensures Reads(r.log) == Reads(s.log)
  {
    if s.cap.Some? && s.isOpen then
      HeldSnoc(s.log, Release(s.cap.value));
      ReadsSnoc(s.log, Release(s.cap.value));
      Session(s.cap, false, s.log + [Release(s.cap.value)])
    else s
  }

  /** `capture_image()`: one `read()` when open; `None` when closed or when the read yields no frame. */
  function CaptureImage(s: Session, driver: Driver): (r: Step<Option<Image>>)
    ensures r.session.isOpen == s.isOpen && r.session.cap == s.cap
    ensures r.out.None? <==> !s.isOpen || s.cap.None? || driver.read(s.cap.value, |s.log|).None?
    ensures !s.isOpen ==> r.session == s
    ensures s.isOpen && s.cap.Some? ==>
              && r.out == driver.read(s.cap.value, |s.log|)
              && r.session.log == s.log + [Read(s.cap.value)]
    ensures Reads(r.session.log) == Reads(s.log) + (if s.isOpen && s.cap.Some? then 1 else 0)
    ensures Valid(s) ==> Valid(r.session) && Held(r.session.log) == Held(s.log)
  {
    if !s.isOpen || s.cap.None? then Step(s, None)
    else
      var h := s.cap.value;
      ReadsSnoc(s.log, Read(h));
      HeldSnoc(s.log, Read(h));
      Step(s.(log := s.log + [Read(h)]), driver.read(h, |s.log|))
  }

  /** `capture_image_base64()`: the captured frame through the JPEG/base64 encoder, which always succeeds. */
  function CaptureImageBase64(s: Session, driver: Driver, codec: Codec): (r: Step<Option<string>>)
    ensures r.session == CaptureImage(s, driver).session
    ensures r.out.None? <==> CaptureImage(s, driver).out.None?
    ensures r.out.Some? ==> r.out.value == codec.encode(CaptureImage(s, driver).out.value)
  {
    var c := CaptureImage(s, driver);
    if c.out.None? then Step(c.session, None)
    else Step(c.session, Some(codec.encode(c.out.value)))
  }

  /** `adjust_settings(brightness, contrast)`: sets only the given properties, and only when open. */
  function AdjustSettings(s: Session, brightness: Option<int>, contrast: Option<int>): (r: Step<bool>)
    ensures r.out <==> s.isOpen && s.cap.Some?
    ensures !r.out ==> r.session == s
    ensures r.session.isOpen == s.isOpen && r.session.cap == s.cap
    ensures r.out ==> |s.log| <= |r.session.log|
    ensures r.out ==>
              var added := r.session.log[|s.log|..];
              && r.session.log == s.log + added
              && |added| == (if brightness.Some? then 1 else 0) + (if contrast.Some? then 1 else 0)
              && (forall k :: 0 <= k < |added| ==> added[k].SetProp? && added[k].handle == s.cap.value)
              && (forall k :: 0 <= k < |added| && added[k].prop == CAP_PROP_BRIGHTNESS ==> brightness == Some(added[k].value))
              && (forall k :: 0 <= k < |added| && added[k].prop == CAP_PROP_CONTRAST ==> contrast == Some(added[k].value))
              && (brightness.Some? ==> SetProp(s.cap.value, CAP_PROP_BRIGHTNESS, brightness.value) in added)
              && (contrast.Some? ==> SetProp(s.cap.value, CAP_PROP_CONTRAST, contrast.value) in added)
    ensures Valid(s) ==> Valid(r.session) && Held(r.session.log) == Held(s.log) && Reads(r.session.log) == Reads(s.log)
  {
    if !s.isOpen || s.cap.None? then Step(s, false)
    else
      var h := s.cap.value;
      var added := SettingEvents(h, brightness, contrast);
      var log := s.log + added;
      SettingEventsKeep(s.log, h, brightness, contrast);
      SettingEventsContent(h, brightness, contrast);
      assert log[|s.log|..] == added;
      Step(s.(log := log), true)
  }

  /** The `set` calls `adjust_settings` makes on handle `h`: brightness first, then contrast, each only when given. */
  function SettingEvents(h: Handle, brightness: Option<int>, contrast: Option<int>): seq<Event>
  {
    (if brightness.Some? then [SetProp(h, CAP_PROP_BRIGHTNESS, brightness.value)] else []) +
    (if contrast.Some? then [SetProp(h, CAP_PROP_CONTRAST, contrast.value)] else [])
  }

  /** The `set` calls name handle `h`, one for each given argument, each carrying that argument. */
  lemma SettingEventsContent(h: Handle, brightness: Option<int>, contrast: Option<int>)
    ensures
      var added := SettingEvents(h, brightness, contrast);
      && |added| == (if brightness.Some? then 1 else 0) + (if contrast.Some? then 1 else 0)
      && (forall k :: 0 <= k < |added| ==> added[k].SetProp? && added[k].handle == h)
      && (forall k :: 0 <= k < |added| && added[k].prop == CAP_PROP_BRIGHTNESS ==> brightness == Some(added[k].value))
      && (forall k :: 0 <= k < |added| && added[k].prop == CAP_PROP_CONTRAST ==> contrast == Some(added[k].value))
      && (brightness.Some? ==> SetProp(h, CAP_PROP_BRIGHTNESS, brightness.value) in added)
      && (contrast.Some? ==> SetProp(h, CAP_PROP_CONTRAST, contrast.value) in added)
  {
  }

  /** Appending `set` calls changes neither the held handles nor the number of reads. */
  lemma SettingEventsKeep(log: seq<Event>, h: Handle, brightness: Option<int>, contrast: Option<int>)
    ensures Held(log + SettingEvents(h, brightness, contrast)) == Held(log)
    ensures Reads(log + SettingEvents(h, brightness, contrast)) == Reads(log)
  {
    var log1 := log;
    if brightness.Some? {
      var e := SetProp(h, CAP_PROP_BRIGHTNESS, brightness.value);
      HeldSnoc(log, e);
      ReadsSnoc(log, e);
      log1 := log + [e];
    }
    var log2 := log1;
    if contrast.Some? {
      var e := SetProp(h, CAP_PROP_CONTRAST, contrast.value);
      HeldSnoc(log1, e);
      ReadsSnoc(log1, e);
      log2 := log1 + [e];
    }
    assert log2 == log + SettingEvents(h, brightness, contrast);
  }

  // ---------------------------------------------------------------------------
  // Properties of open_camera

  /**
    `added` is the trace of an `open_camera` whose constructions were `tried`, with
    result `ok`: attempt k uses the k-th plan entry; a further attempt happens only
    after one that did not open, and stops at the first one that did; each failed
    handle is released right after its construction and before the next one; the
    resolution is requested on the last handle exactly when it opened.
   */
  ghost predicate AttemptTrace(driver: Driver, plan: seq<Request>, added: seq<Event>, tried: seq<Handle>, ok: bool)
  {
    var n := |tried|;
    && 1 <= n <= 3 && |plan| == 3
    && (forall k :: 0 <= k < n ==> tried[k].request == plan[k])
    && (forall k :: 0 <= k < n - 1 ==> !driver.isOpened(tried[k]))
    && (n < 3 ==> driver.isOpened(tried[n - 1]))
    && (ok <==> driver.isOpened(tried[n - 1]))
    && |added| == 2 * n - 1 + (if ok then 2 else 0)
    && (forall k :: 0 <= k < n - 1 ==> added[2 * k] == Construct(tried[k]) && added[2 * k + 1] == Release(tried[k]))
    && added[2 * n - 2] == Construct(tried[n - 1])
    && (ok ==>
          && added[2 * n - 1] == SetProp(tried[n - 1], CAP_PROP_FRAME_WIDTH, DEFAULT_WIDTH)
          && added[2 * n] == SetProp(tried[n - 1], CAP_PROP_FRAME_HEIGHT, DEFAULT_HEIGHT))
  }

  /** The attempts of an `open_camera` call from a closed session, as they appear in the log. */
  lemma OpenAttemptOrder(s: Session, driver: Driver, deviceIndex: int)
    requires !s.isOpen
    ensures
      var r := OpenCamera(s, driver, deviceIndex);
      var tried := Constructed(r.session.log[|s.log|..]);
      && AttemptTrace(driver, Plan(deviceIndex), r.session.log[|s.log|..], tried, r.out)
      && r.session.cap == Some(tried[|tried| - 1])
  {
    var r := OpenCamera(s, driver, deviceIndex);
    var plan := Plan(deviceIndex);
    var n := |s.log|;
    var h1, h2, h3 := Handle(n, plan[0]), Handle(n + 2, plan[1]), Handle(n + 4, plan[2]);
    var core: seq<Event>;
    var tried: seq<Handle>;
    if driver.isOpened(h1) {
      core, tried := [Construct(h1)], [h1];
    } else if driver.isOpened(h2) {
      core, tried := [Construct(h1), Release(h1), Construct(h2)], [h1, h2];
    } else {
      core, tried := [Construct(h1), Release(h1), Construct(h2), Release(h2), Construct(h3)], [h1, h2, h3];
    }
    var last := tried[|tried| - 1];
    var sets := if driver.isOpened(last) then [SetProp(last, CAP_PROP_FRAME_WIDTH, DEFAULT_WIDTH), SetProp(last, CAP_PROP_FRAME_HEIGHT, DEFAULT_HEIGHT)] else [];
    assert r.session.log == s.log + (core + sets);
    assert r.session.log[n..] == core + sets == TraceEvents(tried, driver.isOpened(last));
    TraceOf(driver, plan, tried, driver.isOpened(last));
  }

  /** The events of an `open_camera` whose constructions were `tried`, and whose last handle opened iff `ok`. */
  function TraceEvents(tried: seq<Handle>, ok: bool): seq<Event>
    requires 1 <= |tried| <= 3
  {
    var last := tried[|tried| - 1];
    var sets := if ok then [SetProp(last, CAP_PROP_FRAME_WIDTH, DEFAULT_WIDTH), SetProp(last, CAP_PROP_FRAME_HEIGHT, DEFAULT_HEIGHT)] else [];
    if |tried| == 1 then [Construct(tried[0])] + sets
    else if |tried| == 2 then [Construct(tried[0]), Release(tried[0]), Construct(tried[1])] + sets
    else [Construct(tried[0]), Release(tried[0]), Construct(tried[1]), Release(tried[1]), Construct(tried[2])] + sets
  }

  lemma TraceOf(driver: Driver, plan: seq<Request>, tried: seq<Handle>, ok: bool)
    requires 1 <= |tried| <= 3 && |plan| == 3
    requires forall k :: 0 <= k < |tried| ==> tried[k].request == plan[k]
    requires forall k :: 0 <= k < |tried| - 1 ==> !driver.isOpened(tried[k])
    requires |tried| < 3 ==> driver.isOpened(tried[|tried| - 1])
    requires ok <==> driver.isOpened(tried[|tried| - 1])
    ensures Constructed(TraceEvents(tried, ok)) == tried
    ensures AttemptTrace(driver, plan, TraceEvents(tried, ok), tried, ok)
  {
    TraceConstructed(tried, ok);
  }

  lemma TraceConstructed(tried: seq<Handle>, ok: bool)
    requires 1 <= |tried| <= 3
    ensures Constructed(TraceEvents(tried, ok)) == tried
  {
    var last := tried[|tried| - 1];
    var c0 := [Construct(tried[0])];
    ConstructedSnoc([], Construct(tried[0]));
    assert [] + [Construct(tried[0])] == c0;
    var body: seq<Event>;
    if |tried| == 1 {
      body := c0;
    } else {
      var r0 := c0 + [Release(tried[0])];
      var c1 := r0 + [Construct(tried[1])];
      ConstructedSnoc(c0, Release(tried[0]));
      ConstructedSnoc(r0, Construct(tried[1]));
      if |tried| == 2 {
        body := c1;
      } else {
        var r1 := c1 + [Release(tried[1])];
        var c2 := r1 + [Construct(tried[2])];
        ConstructedSnoc(c1, Release(tried[1]));
        ConstructedSnoc(r1, Construct(tried[2]));
        body := c2;
      }
    }
    assert Constructed(body) == tried;
    if ok {
      var w, h := SetProp(last, CAP_PROP_FRAME_WIDTH, DEFAULT_WIDTH), SetProp(last, CAP_PROP_FRAME_HEIGHT, DEFAULT_HEIGHT);
      ConstructedSnoc(body, w);
      ConstructedSnoc(body + [w], h);
      assert TraceEvents(tried, ok) == body + [w] + [h];
    } else {
      assert TraceEvents(tried, ok) == body;
    }
  }

  /** Opening an open session constructs nothing, whatever device index is asked for. */
  lemma OpenIdempotent(s: Session, driver: Driver, i: int, j: int)
    requires Valid(s)
    ensures
      var first := OpenCamera(s, driver, i);
      var second := OpenCamera(first.session, driver, j);
      first.out ==> second == Step(first.session, true) && Constructed(second.session.log) == Constructed(first.session.log)
  {
  }

  /**
    Resources across `open_camera` from a valid closed session: exactly the last
    handle is added to the held set, whether or not it opened. On total failure that
    handle stays in `cap` unreleased, and `close_camera` leaves it so.
   */
  lemma OpenHeld(s: Session, driver: Driver, deviceIndex: int)
    requires Valid(s) && !s.isOpen
    ensures
      var r := OpenCamera(s, driver, deviceIndex);
      && Valid(r.session)
      && r.session.cap.Some?
      && Held(r.session.log) == Held(s.log) + {r.session.cap.value}
      && Reads(r.session.log) == Reads(s.log)
      && r.session.cap.value !in Held(s.log)
      && (!r.out ==>
            var tried := Constructed(r.session.log[|s.log|..]);
            && |tried| == 3 && r.session.cap.value == tried[2]
            && r.session.cap.value.request == Plan(deviceIndex)[2]
            && r.session.cap.value in Held(CloseCamera(r.session).log))
  {
    OpenFailureLeavesThird(s, driver, deviceIndex);
    var r := OpenCamera(s, driver, deviceIndex);
    var plan := Plan(deviceIndex);
    var h1 := Handle(|s.log|, plan[0]);
    var l1 := s.log + [Construct(h1)];
    HeldSnoc(s.log, Construct(h1));
    ReadsSnoc(s.log, Construct(h1));
    var (h2, l2) := Fallback(driver, h1, l1, plan[1]);
    FallbackStep(driver, Held(s.log), |s.log|, h1, l1, plan[1]);
    var (h3, l3) := Fallback(driver, h2, l2, plan[2]);
    FallbackStep(driver, Held(s.log), |s.log|, h2, l2, plan[2]);
    assert r.session.cap == Some(h3);
    if driver.isOpened(h3) {
      DefaultResolutionKeeps(l3, h3);
    }
  }

  /** Requesting the default resolution neither acquires, releases nor reads. */
  lemma DefaultResolutionKeeps(log: seq<Event>, h: Handle)
    ensures
      var configured := log + [SetProp(h, CAP_PROP_FRAME_WIDTH, DEFAULT_WIDTH), SetProp(h, CAP_PROP_FRAME_HEIGHT, DEFAULT_HEIGHT)];
      Held(configured) == Held(log) && Reads(configured) == Reads(log)
  {
    var w, v := SetProp(h, CAP_PROP_FRAME_WIDTH, DEFAULT_WIDTH), SetProp(h, CAP_PROP_FRAME_HEIGHT, DEFAULT_HEIGHT);
    HeldSnoc(log, w);
    HeldSnoc(log + [w], v);
    ReadsSnoc(log, w);
    ReadsSnoc(log + [w], v);
    assert log + [w, v] == log + [w] + [v];
  }

  /** When no attempt opens, three handles were constructed and `cap` is the third. */
  lemma OpenFailureLeavesThird(s: Session, driver: Driver, deviceIndex: int)
    requires !s.isOpen
    ensures
      var r := OpenCamera(s, driver, deviceIndex);
      var tried := Constructed(r.session.log[|s.log|..]);
      !r.out ==> |tried| == 3 && r.session.cap.value == tried[2]
  {
    OpenAttemptOrder(s, driver, deviceIndex);
  }

  /**
    One fallback step keeps "the held handles are `held0` plus the current one",
    with every handle of `held0` older than position `n0` of the log.
   */
  lemma FallbackStep(driver: Driver, held0: set<Handle>, n0: nat, cap: Handle, log: seq<Event>, request: Request)
    requires Held(log) == held0 + {cap} && cap !in held0
    requires (forall x :: x in held0 ==> x.id < n0) && n0 <= cap.id < |log|
    ensures
      var (h, l) := Fallback(driver, cap, log, request);
      && Held(l) == held0 + {h} && h !in held0
      && n0 <= h.id < |l|
      && Reads(l) == Reads(log)
  {
    if !driver.isOpened(cap) {
      var l1 := log + [Release(cap)];
      var h := Handle(|l1|, request);
      HeldSnoc(log, Release(cap));
      HeldSnoc(l1, Construct(h));
      ReadsSnoc(log, Release(cap));
      ReadsSnoc(l1, Construct(h));
      assert h != cap;
    }
  }

  /** `open_camera` keeps the session invariant, never reads, and from a closed session adds exactly its last handle to the held set. */
  lemma OpenPreservesValid(s: Session, driver: Driver, deviceIndex: int)
    requires Valid(s)
    ensures
      var r := OpenCamera(s, driver, deviceIndex);
      && Valid(r.session)
      && Reads(r.session.log) == Reads(s.log)
      && (!s.isOpen ==> r.session.cap.value !in Held(s.log) && Held(r.session.log) == Held(s.log) + {r.session.cap.value})
  {
    if !s.isOpen {
      OpenHeld(s, driver, deviceIndex);
    }
  }

  /** The third constructor call repeats the first: `device_index + CAP_ANY` is `device_index`. */
  lemma ThirdAttemptRepeatsFirst(deviceIndex: int)
    ensures Plan(deviceIndex)[2] == Plan(deviceIndex)[0]
    ensures Plan(deviceIndex)[2].index == deviceIndex
  {
  }

  /** `close_camera` is idempotent. */
  lemma CloseIdempotent(s: Session)
    ensures CloseCamera(CloseCamera(s)) == CloseCamera(s)
  {
  }
}

=== FILE: decimal.dfy ===
/** Python's `str(n)` for a non-negative integer, and the decimal reading that inverts it. */
module Decimal {

  predicate IsDigit(c: char)
  {
    '0' <= c <= '9'
  }

  predicate AllDigits(s: string)
  {
    forall i :: 0 <= i < |s| ==> IsDigit(s[i])
  }

  function DigitChar(d: nat): (c: char)
    requires d < 10
    ensures IsDigit(c)
  {
    "0123456789"[d]
  }

  function DigitValue(c: char): nat
    requires IsDigit(c)
  {
    c as int - '0' as int
  }

  /** The decimal text of `n`, without leading zeros. */
  function Str(n: nat): (s: string)
    ensures |s| >= 1
    ensures AllDigits(s)
    ensures s[0] == '0' ==> n == 0
    decreases n
  {
    if n < 10 then [DigitChar(n)] else Str(n / 10) + [DigitChar(n % 10)]
  }

  /** The number a string of decimal digits denotes. */
  function Value(s: string): nat
    requires AllDigits(s)
    decreases |s|
  {
    if s == [] then 0 else 10 * Value(s[..|s| - 1]) + DigitValue(s[|s| - 1])
  }

  /** Reading back the decimal text of `n` gives `n`. */
  lemma {:induction false} ValueOfStr(n: nat)
    ensures Value(Str(n)) == n
    decreases n
  {
    var s := Str(n);
    if n < 10 {
      assert s == [DigitChar(n)];
      assert s[..0] == [];
    } else {
      ValueOfStr(n / 10);
      var p := Str(n / 10);
      assert s == p + [DigitChar(n % 10)];
      assert s[..|s| - 1] == p;
    }
  }
}

=== FILE: image_analyzer.dfy ===
/**
  `ImageAnalyzer`: brightness, per-channel means and edge count of a decoded
  frame, the analysis record built from a base64 payload, and its text report.

  OpenCV's numerics (the grey-level weights of `cvtColor` and the Canny detector)
  are an oracle (`Vision`); the float formatting `:.2f` is a function parameter.
  Means are exact real averages.
 */
module ImageAnalyzer {
  import opened Wrappers
  import opened Images
  import opened Decimal

  /** The hysteresis thresholds passed to `cv2.Canny`. */
  const CANNY_LOW: int := 50
  const CANNY_HIGH: int := 150

  /**
    The OpenCV numerics: the grey level `cvtColor(COLOR_BGR2GRAY)` gives a pixel
    stored as (blue, green, red), and cell (i, j) of `Canny(gray, low, high)`.
   */
  datatype Vision = Vision(luma: (Byte, Byte, Byte) -> Byte, edge: (Plane, int, int, nat, nat) -> Byte)

  datatype Dimensions = Dimensions(width: nat, height: nat, channels: nat)
  datatype ColorDistribution = ColorDistribution(redMean: real, greenMean: real, blueMean: real)
  /** The dictionary `analyze_image_from_base64` returns. */
  datatype Analysis = Analysis(dimensions: Dimensions, brightness: real, colors: ColorDistribution, edgeCount: nat)

  // ---------------------------------------------------------------------------
  // Sums, counts and means over single-channel planes

  /** A plane of `h` rows of `w` cells each. */
  predicate Rectangular(g: Plane, h: nat, w: nat)
  {
    |g| == h && forall i :: 0 <= i < |g| ==> |g[i]| == w
  }

  /** Every cell of the plane holds `v`. */
  predicate Uniform(g: Plane, v: Byte)
  {
    forall i, j :: 0 <= i < |g| && 0 <= j < |g[i]| ==> g[i][j] == v
  }

  function CellCount(g: Plane): nat
  {
    if g == [] then 0 else |g[0]| + CellCount(g[1..])
  }

  function RowSum(row: seq<Byte>): nat
  {
    if row == [] then 0 else row[0] + RowSum(row[1..])
  }

  function PlaneSum(g: Plane): nat
  {
    if g == [] then 0 else RowSum(g[0]) + PlaneSum(g[1..])
  }

  lemma {:induction false} CellCountRectangular(g: Plane, h: nat, w: nat)
    requires Rectangular(g, h, w)
    ensures CellCount(g) == h * w
    decreases h
  {
    if g != [] {
      CellCountRectangular(g[1..], h - 1, w);
    }
  }

  lemma {:induction false} RowSumBound(row: seq<Byte>)
    ensures RowSum(row) <= 255 * |row|
  {
    if row != [] {
      RowSumBound(row[1..]);
    }
  }

  /** No sum of 8-bit cells exceeds 255 times their number. */
  lemma {:induction false} PlaneSumBound(g: Plane)
    ensures PlaneSum(g) <= 255 * CellCount(g)
  {
    if g != [] {
      RowSumBound(g[0]);
      PlaneSumBound(g[1..]);
    }
  }

  lemma {:induction false} RowSumUniform(row: seq<Byte>, v: Byte)
    requires forall j :: 0 <= j < |row| ==> row[j] == v
    ensures RowSum(row) == v * |row|
  {
    if row != [] {
      RowSumUniform(row[1..], v);
    }
  }

  /** The cells of a uniform plane add up to its value times their number. */
  lemma {:induction false} PlaneSumUniform(g: Plane, v: Byte)
    requires Uniform(g, v)
    ensures PlaneSum(g) == v * CellCount(g)
  {
    if g != [] {
      UniformSplit(g, v);
      RowSumUniform(g[0], v);
      PlaneSumUniform(g[1..], v);
      Distribute(v, |g[0]|, CellCount(g[1..]));
    }
  }

  /** A uniform plane's first row and remaining rows are uniform with the same value. */
  lemma UniformSplit(g: Plane, v: Byte)
    requires g != [] && Uniform(g, v)
    ensures forall j :: 0 <= j < |g[0]| ==> g[0][j] == v
    ensures Uniform(g[1..], v)
  {
  }

  lemma Distribute(v: int, a: int, b: int)
    ensures v * (a + b) == v * a + v * b
  {
  }

  /** `np.mean` of a non-empty plane, as an exact real average; it lies within the 8-bit range. */
  function Mean(g: Plane): (m: real)
    requires CellCount(g) > 0
    ensures 0.0 <= m <= 255.0
  {
    PlaneSumBound(g);
    RatioBound(PlaneSum(g), CellCount(g));
    PlaneSum(g) as real / CellCount(g) as real
  }

  lemma RatioBound(s: nat, n: nat)
    requires 0 < n && s <= 255 * n
    ensures 0.0 <= s as real / n as real <= 255.0
  {
    var q := s as real / n as real;
    assert q * n as real == s as real;
    assert s as real <= 255.0 * n as real;
    if q > 255.0 {
      assert q * n as real > 255.0 * n as real;
    }
  }

  /** The mean of a uniform plane is its value. */
  lemma MeanUniform(g: Plane, v: Byte)
    requires CellCount(g) > 0 && Uniform(g, v)
    ensures Mean(g) == v as real
  {
    PlaneSumUniform(g, v);
    RatioOfMultiple(v, CellCount(g));
  }

  lemma RatioOfMultiple(v: nat, n: nat)
    requires 0 < n
    ensures (v * n) as real / n as real == v as real
  {
    assert (v * n) as real == v as real * n as real;
  }

  function RowNonzero(row: seq<Byte>): (c: nat)
    ensures c <= |row|
  {
    if row == [] then 0 else (if row[0] != 0 then 1 else 0) + RowNonzero(row[1..])
  }

  /** `np.sum(g > 0)`: the number of non-zero cells; at most the number of cells. */
  function CountNonzero(g: Plane): (c: nat)
    ensures c <= CellCount(g)
  {
    if g == [] then 0 else RowNonzero(g[0]) + CountNonzero(g[1..])
  }

  lemma {:induction false} RowNonzeroExtremes(row: seq<Byte>)
    ensures RowNonzero(row) == 0 <==> forall j :: 0 <= j < |row| ==> row[j] == 0
    ensures RowNonzero(row) == |row| <==> forall j :: 0 <= j < |row| ==> row[j] != 0
  {
    if row != [] {
      RowNonzeroExtremes(row[1..]);
      assert forall j :: 1 <= j < |row| ==> row[j] == row[1..][j - 1];
    }
  }

  /**
    The count is zero exactly when every cell is zero, and equals the number of
    cells exactly when every cell is non-zero.
   */
  lemma {:induction false} CountNonzeroExtremes(g: Plane)
    ensures CountNonzero(g) == 0 <==> forall i, j :: 0 <= i < |g| && 0 <= j < |g[i]| ==> g[i][j] == 0
    ensures CountNonzero(g) == CellCount(g) <==> forall i, j :: 0 <= i < |g| && 0 <= j < |g[i]| ==> g[i][j] != 0
  {
    if g != [] {
      RowNonzeroExtremes(g[0]);
      CountNonzeroExtremes(g[1..]);
      assert forall i :: 1 <= i < |g| ==> g[i] == g[1..][i - 1];
    }
  }

  // ---------------------------------------------------------------------------
  // The image side: planes, grey conversion, and which arrays OpenCV accepts

  /** Every pixel of the image has the stored values `px`. */
  predicate Solid(img: Image, px: Pixel)
  {
    forall i, j :: 0 <= i < |img.rows| && 0 <= j < |img.rows[i]| ==> img.rows[i][j] == px
  }

  /** Stored channel `k` of the image as a plane (one element of `cv2.split`). */
  function ChannelPlane(img: Image, k: nat): (p: Plane)
    requires k < ChannelCount(img.shape)
    ensures Rectangular(p, img.shape[0], img.shape[1])
    ensures forall i, j :: 0 <= i < |p| && 0 <= j < |p[i]| ==> p[i][j] == img.rows[i][j][k]
  {
    seq(|img.rows|, i requires 0 <= i < |img.rows| =>
      seq(|img.rows[i]|, j requires 0 <= j < |img.rows[i]| => img.rows[i][j][k]))
  }

  /** The arrays `cvtColor(COLOR_BGR2GRAY)` accepts: non-empty, 3-D, with 3 or 4 channels. */
  predicate GrayConvertible(img: Image)
  {
    |img.shape| == 3 && (img.shape[2] == 3 || img.shape[2] == 4) && img.shape[0] * img.shape[1] > 0
  }

  /** The arrays `b, g, r = cv2.split(image)` unpacks and whose planes have a mean: exactly 3 channels, non-empty. */
  predicate Splittable(img: Image)
  {
    |img.shape| == 3 && img.shape[2] == 3 && img.shape[0] * img.shape[1] > 0
  }

  /** `cv2.cvtColor(image, cv2.COLOR_BGR2GRAY)`: `None` where OpenCV raises. */
  function ToGray(vision: Vision, img: Image): (r: Option<Plane>)
    ensures r.Some? <==> GrayConvertible(img)
    ensures r.Some? ==> Rectangular(r.value, img.shape[0], img.shape[1])
  {
    if !GrayConvertible(img) then None
    else
      var gray: Plane := seq(|img.rows|, i requires 0 <= i < |img.rows| =>
        seq<Byte>(|img.rows[i]|, j requires 0 <= j < |img.rows[i]| =>
          vision.luma(img.rows[i][j][0], img.rows[i][j][1], img.rows[i][j][2])));
      Some(gray)
  }

  /** `analyze_brightness`: the mean grey level; `None` where `cvtColor` raises. */
  function AnalyzeBrightness(vision: Vision, img: Image): (r: Option<real>)
    ensures r.Some? <==> GrayConvertible(img)
    ensures r.Some? ==> 0.0 <= r.value <= 255.0
  {
    match ToGray(vision, img)
    case None => None
    case Some(gray) =>
      CellCountRectangular(gray, img.shape[0], img.shape[1]);
      Some(Mean(gray))
  }

  /** `analyze_color_distribution`: the mean of each stored channel, named as blue, green, red in storage order. */
  function AnalyzeColorDistribution(img: Image): (r: Option<ColorDistribution>)
    ensures r.Some? <==> Splittable(img)
    ensures r.Some? ==>
              && 0.0 <= r.value.redMean <= 255.0
              && 0.0 <= r.value.greenMean <= 255.0
              && 0.0 <= r.value.blueMean <= 255.0
    ensures r.Some? ==>
              r.value == ColorDistribution(Mean(ChannelPlane(img, 2)), Mean(ChannelPlane(img, 1)), Mean(ChannelPlane(img, 0)))
  {
    if !Splittable(img) then None
    else
      var b, g, r := ChannelPlane(img, 0), ChannelPlane(img, 1), ChannelPlane(img, 2);
      CellCountRectangular(b, img.shape[0], img.shape[1]);
      CellCountRectangular(g, img.shape[0], img.shape[1]);
      CellCountRectangular(r, img.shape[0], img.shape[1]);
      Some(ColorDistribution(Mean(r), Mean(g), Mean(b)))
  }

  /** `Canny(gray, 50, 150)` cell by cell, over the grey image's extent. */
  function EdgeMap(vision: Vision, gray: Plane, h: nat, w: nat): (e: Plane)
    ensures Rectangular(e, h, w)
  {
    var e: Plane := seq(h, i requires 0 <= i < h =>
      seq<Byte>(w, j requires 0 <= j < w => vision.edge(gray, CANNY_LOW, CANNY_HIGH, i, j)));
    e
  }

  /** `detect_edges`: the number of non-zero cells of the edge map; `None` where `cvtColor` raises. */
  function DetectEdges(vision: Vision, img: Image): (r: Option<nat>)
    ensures r.Some? <==> GrayConvertible(img)
    ensures r.Some? ==> r.value <= img.shape[0] * img.shape[1]
  {
    match ToGray(vision, img)
    case None => None
    case Some(gray) =>
      var edges := EdgeMap(vision, gray, img.shape[0], img.shape[1]);
      CellCountRectangular(edges, img.shape[0], img.shape[1]);
      Some(CountNonzero(edges))
  }

  /** `dimensions`: width and height from the shape, channels from the third axis or 1; they are the data's extents. */
  function GetDimensions(img: Image): (d: Dimensions)
    ensures d.height == |img.rows|
    ensures forall i :: 0 <= i < |img.rows| ==> |img.rows[i]| == d.width
    ensures forall i, j :: 0 <= i < |img.rows| && 0 <= j < |img.rows[i]| ==> |img.rows[i][j]| == d.channels
    ensures |img.shape| == 2 ==> d.channels == 1
    ensures |img.shape| == 3 ==> d.channels == img.shape[2]
    ensures d.width == img.shape[1] && d.height == img.shape[0]
  {
    Dimensions(img.shape[1], img.shape[0], ChannelCount(img.shape))
  }

  // ---------------------------------------------------------------------------
  // Analysis of a payload

  /**
    `analyze_image_from_base64`: decode, then dimensions, brightness, colour means
    and edge count. A decoding exception, an undecodable payload and a fault in any
    metric all give `None`.
   */
  function AnalyzeImageFromBase64(codec: Codec, vision: Vision, payload: string): (r: Option<Analysis>)
    ensures !codec.decode(payload).Decoded? ==> r.None?
    ensures r.Some? <==> codec.decode(payload).Decoded? && Splittable(codec.decode(payload).image)
    ensures r.Some? ==>
              var img := codec.decode(payload).image;
              var a := r.value;
              && a.dimensions == Dimensions(img.shape[1], img.shape[0], 3)
              && 0.0 <= a.brightness <= 255.0
              && 0.0 <= a.colors.redMean <= 255.0
              && 0.0 <= a.colors.greenMean <= 255.0
              && 0.0 <= a.colors.blueMean <= 255.0
              && a.edgeCount <= a.dimensions.width * a.dimensions.height
              && Some(a.brightness) == AnalyzeBrightness(vision, img)
              && Some(a.colors) == AnalyzeColorDistribution(img)
              && Some(a.edgeCount) == DetectEdges(vision, img)
  {
    match codec.decode(payload)
    case Raised => None
    case NoImage => None
    case Decoded(img) =>
      var dimensions := GetDimensions(img);
      var brightness := AnalyzeBrightness(vision, img);
      var colors := AnalyzeColorDistribution(img);
      var edges := DetectEdges(vision, img);
      if brightness.None? || colors.None? || edges.None? then None
      else Some(Analysis(dimensions, brightness.value, colors.value, edges.value))
  }

  /** For a solid frame, brightness is the grey level of its pixel. */
  lemma SolidFrameBrightness(vision: Vision, img: Image, px: Pixel)
    requires GrayConvertible(img) && Solid(img, px)
    ensures |px| >= 3
    ensures AnalyzeBrightness(vision, img) == Some(vision.luma(px[0], px[1], px[2]) as real)
  {
    assert img.rows[0][0] == px;
    var gray := ToGray(vision, img).value;
    CellCountRectangular(gray, img.shape[0], img.shape[1]);
    MeanUniform(gray, vision.luma(px[0], px[1], px[2]));
  }

  /** For a solid frame, each colour mean is that pixel's stored channel: red = px[2], green = px[1], blue = px[0]. */
  lemma SolidFrameColors(img: Image, px: Pixel)
    requires Splittable(img) && Solid(img, px)
    ensures |px| == 3
    ensures AnalyzeColorDistribution(img) == Some(ColorDistribution(px[2] as real, px[1] as real, px[0] as real))
  {
    assert img.rows[0][0] == px;
    forall k | 0 <= k < 3
      ensures Mean(ChannelPlane(img, k)) == px[k] as real
    {
      var p := ChannelPlane(img, k);
      CellCountRectangular(p, img.shape[0], img.shape[1]);
      MeanUniform(p, px[k]);
    }
  }

  /** The image with every pixel's stored values reversed (RGB storage instead of BGR). */
  function ReverseChannels(img: Image): (rev: Image)
    requires Splittable(img)
    ensures Splittable(rev) && rev.shape == img.shape
    ensures forall i, j :: 0 <= i < |img.rows| && 0 <= j < |img.rows[i]| ==>
              rev.rows[i][j] == [img.rows[i][j][2], img.rows[i][j][1], img.rows[i][j][0]]
  {
    var rows := seq(|img.rows|, i requires 0 <= i < |img.rows| =>
      seq(|img.rows[i]|, j requires 0 <= j < |img.rows[i]| =>
        [img.rows[i][j][2], img.rows[i][j][1], img.rows[i][j][0]]));
    NdArray(img.shape, rows)
  }

  /** Splitting the reversed image gives the original's planes in reverse order. */
  lemma ReversedPlanes(img: Image, k: nat)
    requires Splittable(img) && k < 3
    ensures ChannelPlane(ReverseChannels(img), k) == ChannelPlane(img, 2 - k)
  {
    var p, q := ChannelPlane(ReverseChannels(img), k), ChannelPlane(img, 2 - k);
    forall i | 0 <= i < |p|
      ensures p[i] == q[i]
    {
      assert |p[i]| == |q[i]|;
    }
  }

  /** Red is read from stored channel 2 and blue from channel 0: reversing the storage order swaps them. */
  lemma RedBlueFollowStorageOrder(img: Image)
    requires Splittable(img)
    ensures AnalyzeColorDistribution(ReverseChannels(img)).value.redMean == AnalyzeColorDistribution(img).value.blueMean
    ensures AnalyzeColorDistribution(ReverseChannels(img)).value.greenMean == AnalyzeColorDistribution(img).value.greenMean
    ensures AnalyzeColorDistribution(ReverseChannels(img)).value.blueMean == AnalyzeColorDistribution(img).value.redMean
  {
    ReversedPlanes(img, 0);
    ReversedPlanes(img, 1);
    ReversedPlanes(img, 2);
  }

  /** The edge count is zero exactly when the edge map has no non-zero cell, and the full area exactly when every cell is non-zero. */
  lemma EdgeCountExtremes(vision: Vision, img: Image)
    requires GrayConvertible(img)
    ensures
      var e := EdgeMap(vision, ToGray(vision, img).value, img.shape[0], img.shape[1]);
      && (DetectEdges(vision, img) == Some(0) <==> forall i, j :: 0 <= i < |e| && 0 <= j < |e[i]| ==> e[i][j] == 0)
      && (DetectEdges(vision, img) == Some(img.shape[0] * img.shape[1]) <==>
            forall i, j :: 0 <= i < |e| && 0 <= j < |e[i]| ==> e[i][j] != 0)
  {
    var e := EdgeMap(vision, ToGray(vision, img).value, img.shape[0], img.shape[1]);
    CountNonzeroExtremes(e);
    CellCountRectangular(e, img.shape[0], img.shape[1]);
  }

  // ---------------------------------------------------------------------------
  // The text report

  const ANALYSIS_FAILED: string := "图像分析失败"
  const REPORT_HEADER: string := "图像分析结果:"
  const SIZE_LABEL: string := "尺寸: "
  const BRIGHTNESS_LABEL: string := "亮度: "
  const COLORS_HEADER: string := "颜色分布:"
  const RED_LABEL: string := "  - 红色平均值: "
  const GREEN_LABEL: string := "  - 绿色平均值: "
  const BLUE_LABEL: string := "  - 蓝色平均值: "
  const EDGE_LABEL: string := "边缘数量: "

  /** The size line of the report: width, then `x`, then height. */
  function SizeLine(width: nat, height: nat): string
  {
    SIZE_LABEL + (Str(width) + "x" + Str(height))
  }

  /** The last line of the report: the edge count in decimal. */
  function EdgeLine(count: nat): string
  {
    EDGE_LABEL + Str(count)
  }

  /** `s.endswith(t)`. */
  predicate EndsWith(s: string, t: string)
  {
    |t| <= |s| && s[|s| - |t|..] == t
  }

  /** The eight lines of the report, top to bottom; `fmt` stands for the `:.2f` rendering of a float. */
  function ReportLines(a: Analysis, fmt: real -> string): seq<string>
  {
    [ REPORT_HEADER,
      SizeLine(a.dimensions.width, a.dimensions.height),
      BRIGHTNESS_LABEL + fmt(a.brightness),
      COLORS_HEADER,
      RED_LABEL + fmt(a.colors.redMean),
      GREEN_LABEL + fmt(a.colors.greenMean),
      BLUE_LABEL + fmt(a.colors.blueMean),
      EdgeLine(a.edgeCount) ]
  }

  /** Lines joined by newlines, with none after the last (a multi-line string literal). */
  function JoinLines(ls: seq<string>): string
    requires |ls| > 0
  {
    if |ls| == 1 then ls[0] else ls[0] + "\n" + JoinLines(ls[1..])
  }

  /** The f-string of `get_basic_analysis`: it opens with the header and size lines and closes with the edge-count line. */
  function Report(a: Analysis, fmt: real -> string): (text: string)
    ensures REPORT_HEADER + "\n" + SizeLine(a.dimensions.width, a.dimensions.height) + "\n" <= text
    ensures EndsWith(text, "\n" + EdgeLine(a.edgeCount))
  {
    var ls := ReportLines(a, fmt);
    JoinLinesStart(ls);
    JoinLinesEnd(ls);
    JoinLines(ls)
  }

  /** Joined lines open with the first two lines, each followed by a newline. */
  lemma JoinLinesStart(ls: seq<string>)
    requires |ls| >= 3
    ensures ls[0] + "\n" + ls[1] + "\n" <= JoinLines(ls)
  {
    JoinLinesFirstTwo(ls);
    PrefixOfAppend(ls[0] + "\n" + ls[1] + "\n", JoinLines(ls[2..]));
  }

  /** Joined lines close with a newline and the last line. */
  lemma JoinLinesEnd(ls: seq<string>)
    requires |ls| >= 2
    ensures EndsWith(JoinLines(ls), "\n" + ls[|ls| - 1])
  {
    JoinLinesLast(ls);
    EndsWithLine(JoinLines(ls[..|ls| - 1]), ls[|ls| - 1]);
  }

  lemma PrefixOfAppend(p: string, q: string)
    ensures p <= p + q
  {
  }

  lemma EndsWithLine(p: string, line: string)
    ensures EndsWith(p + "\n" + line, "\n" + line)
  {
    assert (p + "\n" + line)[|p|..] == "\n" + line;
  }

  lemma JoinLinesFirstTwo(ls: seq<string>)
    requires |ls| >= 3
    ensures JoinLines(ls) == ls[0] + "\n" + ls[1] + "\n" + JoinLines(ls[2..])
  {
    assert ls[1..][1..] == ls[2..];
  }

  lemma {:induction false} JoinLinesLast(ls: seq<string>)
    requires |ls| >= 2
    ensures JoinLines(ls) == JoinLines(ls[..|ls| - 1]) + "\n" + ls[|ls| - 1]
  {
    if |ls| > 2 {
      JoinLinesLast(ls[1..]);
      assert ls[1..][..|ls| - 2] == ls[..|ls| - 1][1..];
    }
  }

  /** `get_basic_analysis`: the fixed failure text exactly when analysis fails, else the report. */
  function GetBasicAnalysis(codec: Codec, vision: Vision, fmt: real -> string, payload: string): (text: string)
    ensures |text| >= 6 && text[..4] == "图像分析"
    ensures text == ANALYSIS_FAILED <==> AnalyzeImageFromBase64(codec, vision, payload).None?
    ensures AnalyzeImageFromBase64(codec, vision, payload).Some? ==>
              var a := AnalyzeImageFromBase64(codec, vision, payload).value;
              && ReadSize(text) == Some((a.dimensions.width, a.dimensions.height))
              && ReadEdgeCount(text) == Some(a.edgeCount)
  {
    match AnalyzeImageFromBase64(codec, vision, payload)
    case None => ANALYSIS_FAILED
    case Some(a) =>
      var text := Report(a, fmt);
      assert text[4] == REPORT_HEADER[4] != ANALYSIS_FAILED[4];
      assert text[..4] == REPORT_HEADER[..4];
      ReportSize(a, fmt);
      ReportEdgeCount(a, fmt);
      text
  }

  // ---------------------------------------------------------------------------
  // Reading a report back

  /** Position of the first `c` in `s`, or `|s|` when there is none. */
  function IndexOf(s: string, c: char): (k: nat)
    ensures k <= |s|
    ensures forall i :: 0 <= i < k ==> s[i] != c
    ensures k < |s| ==> s[k] == c
  {
    if s == [] then 0 else if s[0] == c then 0 else 1 + IndexOf(s[1..], c)
  }

  /** A text without a newline. */
  predicate OneLine(s: string)
  {
    forall i :: 0 <= i < |s| ==> s[i] != '\n'
  }

  /** `s.split("\n")`: the text cut at every newline, so one more piece than there are newlines. */
  function Lines(s: string): (ls: seq<string>)
    ensures |ls| > 0
    decreases |s|
  {
    var k := IndexOf(s, '\n');
    if k == |s| then [s] else [s[..k]] + Lines(s[k + 1..])
  }

  /** The first position holding `c`, or the end when none does, is `IndexOf`. */
  lemma IndexOfFirst(s: string, c: char, k: nat)
    requires k <= |s| && (forall i :: 0 <= i < k ==> s[i] != c) && (k < |s| ==> s[k] == c)
    ensures IndexOf(s, c) == k
  {
  }

  /** When `c` does not occur in `a`, the first `c` of `a + [c] + b` is the one after `a`. */
  lemma FirstAfter(a: string, c: char, b: string)
    requires forall i :: 0 <= i < |a| ==> a[i] != c
    ensures var s := a + [c] + b;
            IndexOf(s, c) == |a| && s[..|a|] == a && s[|a| + 1..] == b
  {
    var s := a + [c] + b;
    assert forall i :: 0 <= i < |a| ==> s[i] == a[i];
    IndexOfFirst(s, c, |a|);
  }

  /** Splitting is compatible with joining: the lines of `x + "\n" + y` are those of `x`, then those of `y`. */
  lemma {:induction false} LinesAppend(x: string, y: string)
    ensures Lines(x + "\n" + y) == Lines(x) + Lines(y)
    decreases |x|
  {
    var k := IndexOf(x, '\n');
    if k == |x| {
      LinesCons(x, y);
      OneLineLines(x);
    } else {
      CutBeforeJoin(x, y, k);
      LinesAppend(x[k + 1..], y);
    }
  }

  /** A one-line text followed by a newline is the first line. */
  lemma LinesCons(x: string, y: string)
    requires OneLine(x)
    ensures Lines(x + "\n" + y) == [x] + Lines(y)
  {
    FirstAfter(x, '\n', y);
  }

  /** When the first newline of `x` is at `k`, the first cut of `x + "\n" + y` is there too. */
  lemma CutBeforeJoin(x: string, y: string, k: nat)
    requires k < |x| && x[k] == '\n' && forall i :: 0 <= i < k ==> x[i] != '\n'
    ensures var s := x + "\n" + y;
            IndexOf(s, '\n') == k && s[..k] == x[..k] && s[k + 1..] == x[k + 1..] + "\n" + y
  {
    var s := x + "\n" + y;
    assert forall i :: 0 <= i < |x| ==> s[i] == x[i];
    IndexOfFirst(s, '\n', k);
  }

  lemma OneLineLines(s: string)
    requires OneLine(s)
    ensures Lines(s) == [s]
  {
  }

  /** Joined one-line texts split back into the same lines. */
  lemma {:induction false} LinesOfJoin(ls: seq<string>)
    requires |ls| > 0 && forall i :: 0 <= i < |ls| ==> OneLine(ls[i])
    ensures Lines(JoinLines(ls)) == ls
  {
    OneLineLines(ls[0]);
    if |ls| > 1 {
      LinesAppend(ls[0], JoinLines(ls[1..]));
      LinesOfJoin(ls[1..]);
    }
  }

  /** The width and height written on a size line, if it is one. */
  function ParseSizeLine(line: string): Option<(nat, nat)>
  {
    if |line| < |SIZE_LABEL| || line[..|SIZE_LABEL|] != SIZE_LABEL then None
    else
      var dims := line[|SIZE_LABEL|..];
      var k := IndexOf(dims, 'x');
      if k == |dims| then None
      else
        var w, h := dims[..k], dims[k + 1..];
        if w == [] || h == [] || !AllDigits(w) || !AllDigits(h) then None
        else Some((Value(w), Value(h)))
  }

  /** The count written on an edge-count line, if it is one. */
  function ParseEdgeLine(line: string): Option<nat>
  {
    if |line| < |EDGE_LABEL| || line[..|EDGE_LABEL|] != EDGE_LABEL then None
    else
      var digits := line[|EDGE_LABEL|..];
      if digits == [] || !AllDigits(digits) then None else Some(Value(digits))
  }

  /** The width and height on the second line of a report. */
  function ReadSize(report: string): Option<(nat, nat)>
  {
    var ls := Lines(report);
    if |ls| < 2 then None else ParseSizeLine(ls[1])
  }

  /** The edge count on the last line of a report. */
  function ReadEdgeCount(report: string): Option<nat>
  {
    var ls := Lines(report);
    ParseEdgeLine(ls[|ls| - 1])
  }

  /** A size line reads back as the width and height it was written from. */
  lemma SizeLineRoundTrip(width: nat, height: nat)
    ensures ParseSizeLine(SizeLine(width, height)) == Some((width, height))
  {
    var w, h := Str(width), Str(height);
    var line := SizeLine(width, height);
    var dims := w + "x" + h;
    assert line[..|SIZE_LABEL|] == SIZE_LABEL;
    assert line[|SIZE_LABEL|..] == dims;
    assert forall i :: 0 <= i < |w| ==> IsDigit(w[i]);
    FirstAfter(w, 'x', h);
    ValueOfStr(width);
    ValueOfStr(height);
  }

  /** An edge-count line reads back as the count it was written from. */
  lemma EdgeLineRoundTrip(count: nat)
    ensures ParseEdgeLine(EdgeLine(count)) == Some(count)
  {
    var line := EdgeLine(count);
    assert line[..|EDGE_LABEL|] == EDGE_LABEL;
    assert line[|EDGE_LABEL|..] == Str(count);
    ValueOfStr(count);
  }

  /** A size line is a single line: it holds no newline. */
  lemma SizeLineSingle(width: nat, height: nat)
    ensures OneLine(SizeLine(width, height))
  {
  }

  /** The first two pieces of joined lines are the first two lines, when those have no newline of their own. */
  lemma LinesOfJoinHead(ls: seq<string>)
    requires |ls| >= 3 && OneLine(ls[0]) && OneLine(ls[1])
    ensures var pieces := Lines(JoinLines(ls));
            |pieces| >= 2 && pieces[0] == ls[0] && pieces[1] == ls[1]
  {
    var rest := ls[1..];
    assert rest[0] == ls[1];
    LinesCons(ls[0], JoinLines(rest));
    LinesCons(rest[0], JoinLines(rest[1..]));
  }

  /** The size of an analysed frame can be read back from its report, whatever the float formatting. */
  lemma ReportSize(a: Analysis, fmt: real -> string)
    ensures ReadSize(Report(a, fmt)) == Some((a.dimensions.width, a.dimensions.height))
  {
    var ls := ReportLines(a, fmt);
    SizeLineSingle(a.dimensions.width, a.dimensions.height);
    LinesOfJoinHead(ls);
    SizeLineRoundTrip(a.dimensions.width, a.dimensions.height);
  }

  /** The edge count can be read back from the last line of a report, whatever the float formatting. */
  lemma ReportEdgeCount(a: Analysis, fmt: real -> string)
    ensures ReadEdgeCount(Report(a, fmt)) == Some(a.edgeCount)
  {
    var ls := ReportLines(a, fmt);
    assert forall i :: 0 <= i < |Str(a.edgeCount)| ==> IsDigit(Str(a.edgeCount)[i]);
    LastLineOfJoin(ls);
    EdgeLineRoundTrip(a.edgeCount);
  }

  /** The last piece of joined lines is the last line, when that line has no newline of its own. */
  lemma LastLineOfJoin(ls: seq<string>)
    requires |ls| >= 2 && OneLine(ls[|ls| - 1])
    ensures var pieces := Lines(JoinLines(ls));
            pieces[|pieces| - 1] == ls[|ls| - 1]
  {
    JoinLinesLast(ls);
    LinesAppend(JoinLines(ls[..|ls| - 1]), ls[|ls| - 1]);
    OneLineLines(ls[|ls| - 1]);
  }

  /**
    When the float rendering stays on one line, the report is exactly eight lines:
    header, size, brightness, the colour heading, then red, green and blue, then the edge count.
   */
  lemma ReportLayout(a: Analysis, fmt: real -> string)
    requires OneLine(fmt(a.brightness)) && OneLine(fmt(a.colors.redMean))
    requires OneLine(fmt(a.colors.greenMean)) && OneLine(fmt(a.colors.blueMean))
    ensures Lines(Report(a, fmt)) ==
              [ REPORT_HEADER,
                SizeLine(a.dimensions.width, a.dimensions.height),
                BRIGHTNESS_LABEL + fmt(a.brightness),
                COLORS_HEADER,
                RED_LABEL + fmt(a.colors.redMean),
                GREEN_LABEL + fmt(a.colors.greenMean),
                BLUE_LABEL + fmt(a.colors.blueMean),
                EdgeLine(a.edgeCount) ]
  {
    var ls := ReportLines(a, fmt);
    SizeLineSingle(a.dimensions.width, a.dimensions.height);
    assert forall i :: 0 <= i < |Str(a.edgeCount)| ==> IsDigit(Str(a.edgeCount)[i]);
    assert forall i :: 0 <= i < |ls| ==> OneLine(ls[i]);
    LinesOfJoin(ls);
  }
}

=== FILE: images.dfy ===
/**
  Images as numpy arrays of unsigned 8-bit values, and the foreign JPEG/base64
  codec as an oracle.
 */
module Images {
  import opened Wrappers

  /** One `uint8` array element. */
  type Byte = x: int | 0 <= x < 256

  /** The values stored for one pixel, in storage order (blue, green, red for a colour frame). */
  type Pixel = seq<Byte>

  /** A single-channel 8-bit image (grayscale or edge map), row by row. */
  type Plane = seq<seq<Byte>>

  /** Number of values per pixel implied by an array shape: the third axis when there is one, else 1. */
  function ChannelCount(shape: seq<nat>): nat
  {
    if |shape| > 2 then shape[2] else 1
  }

  /** An `np.ndarray` image: its `shape` and its elements, row by row and pixel by pixel. */
  datatype NdArray = NdArray(shape: seq<nat>, rows: seq<seq<Pixel>>)

  /** The elements agree with the shape: 2-D or 3-D, `shape[0]` rows of `shape[1]` pixels each. */
  predicate WellShaped(a: NdArray)
  {
    && (|a.shape| == 2 || |a.shape| == 3)
    && |a.rows| == a.shape[0]
    && (forall i :: 0 <= i < |a.rows| ==> |a.rows[i]| == a.shape[1])
    && (forall i, j :: 0 <= i < |a.rows| && 0 <= j < |a.rows[i]| ==> |a.rows[i][j]| == ChannelCount(a.shape))
  }

  type Image = a: NdArray | WellShaped(a) witness NdArray([0, 0], [])

  /** What decoding a base64 JPEG payload yields: a Python exception, `imdecode` returning `None`, or an image. */
  datatype DecodeOutcome = Raised | NoImage | Decoded(image: Image)

  /**
    The foreign codec. `encode` is `imencode('.jpg')` followed by `b64encode`, whose
    success flag the camera code ignores; `decode` is `b64decode`, `frombuffer` and
    `imdecode(IMREAD_COLOR)`.
   */
  datatype Codec = Codec(encode: Image -> string, decode: string -> DecodeOutcome)
}

=== FILE: main.dfy ===
/**
  The `capture_and_analyze_image` tool handler: open, capture, close, analyse,
  with an early exit and a fixed message when opening or capturing fails.
  The service objects the handler shares are the session and oracles passed in.
 */
module Server {
  import opened Wrappers
  import opened Images
  import opened CameraService
  import opened ImageAnalyzer

  const OPEN_FAILED: string := "无法打开摄像头"
  const CAPTURE_FAILED: string := "图像捕获失败"

  /**
    `capture_and_analyze_image(device_index)`. Whatever happens, the session ends
    closed; when the open succeeded, the last driver call is the release of the
    opened handle; at most one frame is read.
   */
  function CaptureAndAnalyzeImage(s: Session, driver: Driver, codec: Codec, vision: Vision, fmt: real -> string, deviceIndex: int): (r: Step<string>)
    requires Valid(s)
    ensures !r.session.isOpen && Valid(r.session)
    ensures var start := OpenCamera(s, driver, deviceIndex);
            && (r.out == OPEN_FAILED <==> !start.out)
            && (!start.out ==> r.session == start.session)
            && (start.out ==> |r.session.log| > 0 && r.session.log[|r.session.log| - 1] == Release(start.session.cap.value))
    ensures var start := OpenCamera(s, driver, deviceIndex);
            var captured := CaptureImageBase64(start.session, driver, codec);
            && (r.out == CAPTURE_FAILED <==> start.out && captured.out.None?)
            && (start.out && captured.out.Some? ==> r.out == GetBasicAnalysis(codec, vision, fmt, captured.out.value))
    ensures Reads(r.session.log) == Reads(s.log) + (if OpenCamera(s, driver, deviceIndex).out then 1 else 0)
    ensures Held(r.session.log) ==
              if s.isOpen then Held(s.log) - {s.cap.value}
              else if r.out == OPEN_FAILED then Held(s.log) + {r.session.cap.value}
              else Held(s.log)
  {
    var start := OpenCamera(s, driver, deviceIndex);
    OpenPreservesValid(s, driver, deviceIndex);
    if !start.out then
      assert OPEN_FAILED[0] != CAPTURE_FAILED[0];
      Step(start.session, OPEN_FAILED)
    else
      var captured := CaptureImageBase64(start.session, driver, codec);
      var closed := CloseCamera(captured.session);
      CaptureThenClose(start.session, driver, codec);
      if captured.out.None? then
        assert OPEN_FAILED[0] != CAPTURE_FAILED[0];
        Step(closed, CAPTURE_FAILED)
      else
        var text := GetBasicAnalysis(codec, vision, fmt, captured.out.value);
        AnalysisTextDistinct(codec, vision, fmt, captured.out.value);
        Step(closed, text)
  }

  /** An analysis text is never one of the handler's own failure messages. */
  lemma AnalysisTextDistinct(codec: Codec, vision: Vision, fmt: real -> string, payload: string)
    ensures GetBasicAnalysis(codec, vision, fmt, payload) != OPEN_FAILED
    ensures GetBasicAnalysis(codec, vision, fmt, payload) != CAPTURE_FAILED
  {
  }

  /** Capturing from an open session and then closing it reads once, releases the open handle last, and leaves a closed, valid session. */
  lemma CaptureThenClose(s: Session, driver: Driver, codec: Codec)
    requires Valid(s) && s.isOpen
    ensures
      var closed := CloseCamera(CaptureImageBase64(s, driver, codec).session);
      && !closed.isOpen && Valid(closed)
      && |closed.log| > 0 && closed.log[|closed.log| - 1] == Release(s.cap.value)
      && Reads(closed.log) == Reads(s.log) + 1
      && Held(closed.log) == Held(s.log) - {s.cap.value}
  {
  }

  /** The analysis oracles cannot affect the camera: the session a call leaves depends only on the driver and codec. */
  lemma AnalysisLeavesCameraAlone(s: Session, driver: Driver, codec: Codec, v1: Vision, f1: real -> string, v2: Vision, f2: real -> string, deviceIndex: int)
    requires Valid(s)
    ensures CaptureAndAnalyzeImage(s, driver, codec, v1, f1, deviceIndex).session ==
            CaptureAndAnalyzeImage(s, driver, codec, v2, f2, deviceIndex).session
  {
  }
}

=== FILE: wrappers.dfy ===
/** The optional value used wherever the Python code returns a value or `None`. */
module Wrappers {

  datatype Option<+T> = None | Some(value: T)
}
